=== FILE: README.md ===
# Math routing agent: retrieval-and-routing core in Dafny

This project models the decision core of a retrieval-augmented math tutor
backend (`backend/main.py`, `backend/ingest.py`):

- the **input guardrail** (`input_guardrail`), an allow-list of math tokens
  and configured topics tested as substrings of the lower-cased question, and
  the **output guardrail** (`output_guardrail`), a deny-list of phrases;
- the **`/ask` route**: strip the question, reject it when the input
  guardrail refuses, otherwise embed it, search the knowledge base, trust the
  nearest hit only when its distance is strictly below 0.35, else fall back
  to web text, generate a step-by-step answer and apply the output
  guardrail, or answer with a fixed apology when no evidence was found;
- the **web snippet formatter** (`web_search_extract`) with the HTTP call
  replaced by an abstract provider;
- the **knowledge-base writers**: `feedback` (one new entry under a fresh
  id), `ingest_manual` and `build_kb` (bulk mapping of items onto ids,
  embedding texts and payloads, collection creation, batch upsert).

The embedder, the store's search, the web provider, the generator and the
uuid generator are parameters (function values or oracle values). `Ask`
returns, next to the response, the sequence of collaborator calls it made,
so "never called" statements are part of the contracts.

Files and modules:

| file | module | contents |
|---|---|---|
| wrappers.dfy | `Wrappers` | `Option`, `Result` |
| text.dfy | `Text` | ASCII `lower`, substring test `in`, `find`, `strip` with Python's whitespace set |
| guardrails.dfy | `Guardrails` | token and phrase lists, both guardrails |
| web.dfy | `WebExtract` | result blocks, `"\n\n".join`, the web text |
| store.dfy | `KnowledgeStore` | payloads, points, batch upsert, store operations |
| writers.dfy | `Writers` | feedback, bulk ingest, `ingest_manual` |
| routing.dfy | `Routing` | prompts, threshold, `/ask` |

A behaviour worth knowing, proved in `Routing.BankPasswordQuestionIsRouted`:
the question "What is your bank account password?" is NOT rejected by the
input guardrail, because the single-letter token `y` occurs in "your". The
token list makes the guardrail accept almost any English sentence; the model
follows the code.

## Model

| member | source | states |
|---|---|---|
| Text.Lower | backend/main.py:21 | `str.lower()` on ASCII: the length is kept, every capital A-Z becomes its small letter, every other character is unchanged, and the result holds no capital |
| Text.Contains | backend/main.py:24 | Python's `p in t`: true exactly when `p` occurs at some position of `t` (the empty string occurs everywhere) |
| Text.ContainsAny | backend/main.py:24 | `any(p in t for p in ps)`: true exactly when some listed string occurs in `t` |
| Text.Strip | backend/main.py:54 | `str.strip()`: the result is a slice of the input, everything cut off is whitespace, and the result neither starts nor ends with whitespace |
| Text.StripUnique | backend/main.py:54 | only one string meets that description, so the strip is fully determined |
| Text.StripIdempotent | backend/main.py:54 | stripping twice is stripping once |
| Guardrails.InputGuardrail | backend/main.py:19-29 | accepted exactly when the lower-cased text contains some math token or some configured topic; otherwise rejected; total |
| Guardrails.OutputGuardrail | backend/main.py:31-36 | unsafe exactly when the lower-cased text contains a forbidden phrase; safe otherwise; total |
| Guardrails.AcceptsTokenInAnyCase | backend/main.py:21-25 | a math token written in any mix of cases anywhere in the question makes it acceptable, for every topic list |
| Guardrails.AcceptsOperatorsAndVariables | backend/main.py:23-25 | one character among x, X, y, Y, +, -, *, /, ^ anywhere in the question suffices for acceptance |
| Guardrails.RejectsWithoutTokens | backend/main.py:24-29 | a question containing no math token and no topic is rejected |
| Guardrails.BlocksPhraseInAnyCase | backend/main.py:33-35 | a forbidden phrase in any mix of cases blocks the answer |
| Guardrails.GuardrailsIgnoreCase | backend/main.py:21 | texts equal after lower-casing get the same verdict from both guardrails |
| Guardrails.UppercaseTopicNeverMatches | backend/main.py:27 | a configured topic with an upper-case letter never matches, as topics are compared with the lower-cased text unchanged |
| Guardrails.BankPasswordQuestion | backend/main.py:23-24 | "What is your bank account password?" passes the input guardrail, for every topic list (the letter y is a math token) |
| Guardrails.BankPasswordAnswerBlocked | backend/main.py:33-35 | the same text, produced as an answer, is blocked by the output guardrail ("password" is forbidden) |
| WebExtract.WebSearchExtract | backend/main.py:86-102 | no text without a configured key, no text exactly when the provider fails, otherwise the formatted results; results after the third never matter |
| WebExtract.SnippetText | backend/main.py:97 | a non-empty snippet is used as is; otherwise the text of `rich_snippet.top` when present, `None` when it is null, and the empty string when it is missing; the text is empty exactly when the snippet is falsy and `top` is absent or empty |
| WebExtract.Block | backend/main.py:99 | a result block is the title, a line break, the snippet, a line break and the url, each verbatim at fixed offsets |
| WebExtract.Join | backend/main.py:100 | `"\n\n".join` is empty for no parts, is the part itself for one part, and otherwise starts with the first part followed by the blank-line separator |
| WebExtract.WebText | backend/main.py:95-100 | the text of a provider answer is empty for no results, exactly the block of a single result, and otherwise opens with the top result's block |
| WebExtract.JoinTwo | backend/main.py:100 | two parts are joined as the first, a blank line, and the second |
| WebExtract.JoinThree | backend/main.py:100 | three parts are joined with a blank line between each neighbouring pair |
| WebExtract.WebTextOfTwo | backend/main.py:95-100 | for two results the text is the two blocks around one blank line |
| WebExtract.WebTextOfThree | backend/main.py:95-100 | for three or more results the text is the first three blocks separated by blank lines; later results are dropped |
| WebExtract.WebTextJoinsTopBlocks | backend/main.py:95-100 | for two results, and for three or more, the web text is exactly the top blocks joined by `"\n\n"` |
| WebExtract.JoinSplit | backend/main.py:100 | the joined text splits into the join of any prefix, a blank line, and the join of the rest |
| WebExtract.JoinContainsEach | backend/main.py:100 | every block appears verbatim in the joined text, right after the preceding blocks and their separators |
| WebExtract.WebTextEmptyIffNoResults | backend/main.py:94-100 | the web text is empty exactly when the provider returned no results |
| WebExtract.WebTextHoldsTopBlocks | backend/main.py:95-100 | each of the first three results contributes its `title\nsnippet\nurl` block |
| WebExtract.BlockRoundTrip | backend/main.py:96-99 | a block reads back as its title, its snippet (with the `rich_snippet.top` and empty fallbacks) and its url (default empty) when title and url are single-line |
| KnowledgeStore.Upsert | backend/ingest.py:27 | after a batch upsert the ids are the old ids plus the batch ids, untouched ids keep their points, and each id holds the point written last for it |
| Writers.ItemPayload | backend/ingest.py:26 | the payload keeps the question and takes answer and steps from the item, each defaulting to the empty string |
| Writers.EmbeddingText | backend/ingest.py:21 | the embedded text is the question, then ` \|\|\| `, then the answer or the empty string, each verbatim (also `ingest_manual`, main.py line 121) |
| Writers.Feedback | backend/main.py:105-116 | one entry is written under the new id, with payload question / correct answer or "" / comment or "" and the bare question's vector; no other entry changes; a fresh id grows the store by one |
| Writers.FreshIdExists | backend/main.py:112-115 | whatever the store holds, some id is unused, and feedback recorded under such an id grows the store by exactly one entry |
| Writers.FeedbackKeepsDuplicateQuestion | backend/main.py:107-115 | feedback on a question already stored keeps the old entry and adds a new one |
| Writers.PrepareBatch | backend/ingest.py:21-26 | ids, vectors and payloads are aligned with the items: vector of `question ||| answer`, item payload, the item's own id when present, otherwise the generated one |
| Writers.BulkIngest | backend/ingest.py:16-28 | an empty batch fails before any write; otherwise the collection is created with the batch's vector size before the single upsert, and every item's point is stored under its id |
| Writers.IngestManual | backend/main.py:118-127 | the HTTP ingest performs the bulk ingest and reports exactly the number of items received |
| Writers.CollectionSizeIsDimension | backend/ingest.py:22-24 | with an embedder of fixed dimension the collection's vector size is that dimension |
| Writers.IngestedItemsReadBack | backend/ingest.py:25-27 | with distinct given ids, each item's payload is stored under its own id |
| Writers.EmbeddingTextRoundTrip | backend/ingest.py:21 | the embedding text splits back into question and answer at the first separator when the question holds no `\|` |
| Routing.Generate | backend/main.py:69-71 | a generated answer becomes a response only when it passes the output guardrail, otherwise the error is OutputBlocked; the generator is called once, last |
| Routing.WebFallback | backend/main.py:75-84 | after a miss: the apology without generating exactly when the web text is absent or empty, otherwise a web answer from the web prompt or OutputBlocked |
| Routing.Route | backend/main.py:59-72 | the stripped question is embedded and searched first; a hit under the threshold is answered from the knowledge base with no web call, anything else goes to the web fallback |
| Routing.Ask | backend/main.py:52-57 | rejected exactly when the stripped question fails the input guardrail, and then with no collaborator call; otherwise the outcome is exactly that of `Route` on the stripped question, so every `Route` lemma below applies to `/ask` |
| Routing.KbContext | backend/main.py:67 | the context is the entry's steps when non-empty, otherwise its answer; it is empty only when both are |
| Routing.KbPromptLayout | backend/main.py:68 | the knowledge-base prompt is the instruction head, the question, the `Context:` label, the context and the closing request, each verbatim at fixed offsets |
| Routing.WebPromptLayout | backend/main.py:77 | the web prompt has the same layout with its own head, the `Web extraction:` label and the web text |
| Routing.OnlyNearestResultDecides | backend/main.py:64 | no results is never a hit; otherwise only the nearest result decides, against the strict bound 0.35, and the results after it never matter |
| Routing.WebTextPresentIffResults | backend/main.py:75-100 | the web branch generates only when a key is configured and the provider answered with at least one result; otherwise the web text is absent or empty |
| Routing.AskNeverReturnsUnsafe | backend/main.py:69-81 | a returned generated answer always passes the output guardrail; OutputBlocked comes only after a generation whose text failed it |
| Routing.RouteKbBranch | backend/main.py:62-72 | for an accepted question, a knowledge-base answer exactly on a hit under the threshold with a safe generation, carrying the top payload |
| Routing.AskKbBranch | backend/main.py:62-72 | the same for `/ask` as a whole, with source `knowledge_base`, and no web lookup on a hit |
| Routing.ThresholdIsExclusive | backend/main.py:64 | once routed, a nearest distance of exactly 0.35 is a miss: no knowledge-base answer, and a web lookup when a key is set |
| Routing.RouteNoResult | backend/main.py:75-84 | after a miss, the apology exactly when the web text is absent or empty, with no generation |
| Routing.AskNoResult | backend/main.py:74-84 | the apology is returned exactly for an accepted question with a knowledge-base miss and no web text; nothing is generated for it |
| Routing.EmptyWebResultsGiveNoResult | backend/main.py:75-84 | after a knowledge-base miss, a provider answering with no results leads to the apology |
| Routing.MissWithoutKey | backend/main.py:75-89 | a routed question with a knowledge-base miss and no search key gets the apology after exactly an embed and a search, with no web call and no generation |
| Routing.IntegrateWithoutKey | backend/main.py:84-89 | "Integrate x^2 dx" with a knowledge-base miss and no search key gets the apology after exactly an embed and a search |
| Routing.KbHitAnswered | backend/main.py:64-72 | a routed question whose nearest entry is under the threshold, with a safe generation, gets a knowledge-base answer carrying that entry, after exactly an embed, a search and one generation from the knowledge-base prompt |
| Routing.DerivativeFromKnowledgeBase | backend/main.py:64-72 | an entry for "derivative of x^2" at distance 0.05 with non-empty steps answers that question from the knowledge base, the prompt using the steps as context, and nothing is looked up on the web |
| Routing.DerivativePromptMentionsResult | backend/main.py:67-68 | with the steps "apply power rule: d/dx x^2 = 2x" the generation prompt contains "2x" |
| Routing.BankPasswordQuestionIsRouted | backend/main.py:54-57 | "What is your bank account password?" is not rejected by `/ask` |

## Left out

- HTTP plumbing: FastAPI routes, request models, status codes (a rejection is a `Failure`, a reply a `Success`), CORS and `/health`. `user_id` is accepted by the handlers but never used, so it is not modelled.
- The language model (`backend/llm.py`) and the embedding model (`backend/embed_model.py`): both are opaque deterministic total functions; the generator's remote-then-local fallback, token budget and decoding settings are not modelled.
- Routing.Generate: the generator is assumed to return a string. The remote path of `backend/llm.py` returns `r.json().get("text")`, which is `None` for a reply without a `text` key; the output guardrail then fails on `None.lower()` and the request ends in a server error, which the model does not represent.
- Routing.Route: exceptions raised by the embedder (`embed.encode` in `/ask`, `/feedback` and `/ingest`) or by the generator propagate as server errors in the handler; the model treats both collaborators as never failing, so no outcome stands for such a crash.
- The vector store implementation (`vectorstore.QdrantStore`) is not part of this model: search is an abstract function of the store and the query vector, and its failures (which would propagate as server errors) are not modelled; creating a collection records its vector size only, whatever the real store does to points already present; duplicate ids inside one batch are assumed to resolve to the last one.
- Ingest-then-query round trips: they depend on the store's search, which is abstract here.
- The `requests.get` call, JSON decoding and timeout of `web_search_extract`: the provider is a function returning either failure or the organic results. Failures raised while formatting a result (for example a `rich_snippet` that is not an object while the snippet is falsy) are folded into provider failure.
- WebExtract.WebSearchExtract: each JSON value under `title`, `snippet`, `rich_snippet.top` and `link` is absent, `null` (printed `None`) or given by the text Python prints for it; a string prints as itself, and any other value (such as an object under `top`) is taken as already printed. A falsy value that is not a string (an empty list or object as the snippet) is not modelled: only the empty string is a falsy snippet.
- Text.Lower: only ASCII letters are lower-cased; Python also folds non-ASCII letters, some of which (such as the Kelvin sign) fold to ASCII letters and could then match a token.
- Floating point: distances are `real` and are only compared with 0.35; vectors are sequences of reals whose values are never inspected.
- Writers.FreshIdExists: `uuid.uuid4()` is not modelled; `Feedback` takes the new id as a parameter and assumes, as a random uuid practically guarantees, that it is unused. The lemma only shows that such an id exists and what feedback under it does; bulk ingest likewise takes its generated ids as given.
- `load_dataset` and the final `print` of `build_kb`: the dataset is the item list passed in. Items are assumed to carry a string question and string-or-absent answer, steps and id; a missing question (a `KeyError`) or a null answer is not modelled.
- An empty ingest batch is modelled as a failure before any write: the embedded batch then has no second dimension to read the vector size from.
- The reply of `feedback` is a constant status message; the model returns the updated store instead.

=== FILE: guardrails.dfy ===
/** The two guardrails of the request handler: an allow-list test on the
    incoming question and a deny-list test on the generated answer. Both
    compare against the lower-cased text and never fail. */
module Guardrails {
  import opened Text

  /** Substrings whose presence marks a question as mathematical. */
  const MathTokens: seq<string> := [
    "solve", "integrate", "differentiate", "derivative", "integral", "limit",
    "sum", "compute", "prove", "matrix", "determinant", "eigen",
    "sin(", "cos(", "tan(", "log(", "\U{2211}",
    "+", "-", "*", "/", "^", "x", "y"
  ]

  /** Phrases whose presence blocks a generated answer. */
  const ForbiddenPhrases: seq<string> := [
    "diagnose", "legal advice", "prescribe", "bank account", "password",
    "social security", "credit card"
  ]

  /** Input acceptance. `topics` is the configured allowed-topic list; it is
      matched as given, against the lower-cased question. */
  function InputGuardrail(text: string, topics: seq<string>): (accepted: bool)
    ensures accepted <==>
      || (exists k :: 0 <= k < |MathTokens| && Occurs(Lower(text), MathTokens[k]))
      || (exists k :: 0 <= k < |topics| && Occurs(Lower(text), topics[k]))
  {
    var t := Lower(text);
    ContainsAny(t, MathTokens) || ContainsAny(t, topics)
  }

  /** Output safety: false exactly when a forbidden phrase occurs. */
  function OutputGuardrail(text: string): (safe: bool)
    ensures !safe <==> exists k :: 0 <= k < |ForbiddenPhrases| && Occurs(Lower(text), ForbiddenPhrases[k])
  {
    !ContainsAny(Lower(text), ForbiddenPhrases)
  }

  /** A lower-case `p` written in any mix of cases inside `text` at `i`
      occurs in the lower-cased text. */
  lemma OccursInAnyCase(text: string, p: string, i: int)
    requires 0 <= i && i + |p| <= |text|
    requires Lower(text[i..i + |p|]) == p
    ensures Occurs(Lower(text), p)
  {
    LowerSlice(text, i, i + |p|);
    assert IsAt(Lower(text), p, i);
  }

  /** Every math token, written in any case anywhere in the question, makes
      the question acceptable, whatever the topic list is. */
  lemma AcceptsTokenInAnyCase(text: string, topics: seq<string>, k: int, i: int)
    requires 0 <= k < |MathTokens|
    requires 0 <= i && i + |MathTokens[k]| <= |text|
    requires Lower(text[i..i + |MathTokens[k]|]) == MathTokens[k]
    ensures InputGuardrail(text, topics)
  {
    OccursInAnyCase(text, MathTokens[k], i);
  }

  /** A single character among x, y, +, -, *, / and ^ (upper- or lower-case)
      anywhere in the question is enough for acceptance. */
  lemma AcceptsOperatorsAndVariables(text: string, topics: seq<string>, i: int)
    requires 0 <= i < |text|
    requires LowerChar(text[i]) in {'x', 'y', '+', '-', '*', '/', '^'}
    ensures InputGuardrail(text, topics)
  {
    var c := LowerChar(text[i]);
    var k := if c == '+' then 17 else if c == '-' then 18 else if c == '*' then 19
      else if c == '/' then 20 else if c == '^' then 21 else if c == 'x' then 22 else 23;
    assert MathTokens[k] == [c];
    assert text[i..i + 1] == [text[i]];
    AcceptsTokenInAnyCase(text, topics, k, i);
  }

  /** A question in which no math token and no topic occurs is rejected. */
  lemma RejectsWithoutTokens(text: string, topics: seq<string>)
    requires forall k :: 0 <= k < |MathTokens| ==> !Occurs(Lower(text), MathTokens[k])
    requires forall k :: 0 <= k < |topics| ==> !Occurs(Lower(text), topics[k])
    ensures !InputGuardrail(text, topics)
  {
  }

  /** A forbidden phrase in any mix of cases blocks the answer. */
  lemma BlocksPhraseInAnyCase(text: string, k: int, i: int)
    requires 0 <= k < |ForbiddenPhrases|
    requires 0 <= i && i + |ForbiddenPhrases[k]| <= |text|
    requires Lower(text[i..i + |ForbiddenPhrases[k]|]) == ForbiddenPhrases[k]
    ensures !OutputGuardrail(text)
  {
    OccursInAnyCase(text, ForbiddenPhrases[k], i);
  }

  /** Both guardrails see only the lower-cased text: texts that differ only
      in the case of ASCII letters get the same verdicts. */
  lemma GuardrailsIgnoreCase(a: string, b: string, topics: seq<string>)
    requires Lower(a) == Lower(b)
    ensures InputGuardrail(a, topics) == InputGuardrail(b, topics)
    ensures OutputGuardrail(a) == OutputGuardrail(b)
  {
  }

  /** A configured topic holding an upper-case letter can never match, since
      it is compared with the lower-cased question. */
  lemma UppercaseTopicNeverMatches(text: string, topic: string, j: int)
    requires 0 <= j < |topic| && IsUpper(topic[j])
    ensures !Occurs(Lower(text), topic)
  {
  }

  /** The question "What is your bank account password?" passes the input
      guardrail for every topic list, because it contains the token "y". */
  lemma BankPasswordQuestion(q: string, topics: seq<string>)
    requires q == "What is your bank account password?"
    ensures InputGuardrail(q, topics)
  {
    AcceptsOperatorsAndVariables(q, topics, 8);
  }

  /** A generated answer repeating that question is blocked. */
  lemma BankPasswordAnswerBlocked(q: string)
    requires q == "What is your bank account password?"
    ensures !OutputGuardrail(q)
  {
    assert q[26..34] == "password";
    BlocksPhraseInAnyCase(q, 4, 26);
  }
}

=== FILE: routing.dfy ===
/** The question-answering route: input guardrail, embedding, knowledge-base
    search with a distance threshold, web fallback, generation and output
    guardrail, or a fixed apology when no evidence was found. Every
    collaborator is an abstract function; the outcome records which of them
    were called, in order. */
module Routing {
  import opened Wrappers
  import opened Text
  import opened Guardrails
  import opened WebExtract
  import opened KnowledgeStore

  /** A hit is trusted only when its distance is strictly below this. */
  const KbThreshold: real := 0.35

  const NoResultApology: string :=
    "I couldn't find a reliable source for this question. Please provide more context or wait for a human review."

  /** The handler's collaborators and settings. `search` returns hits in
      ascending distance; `topK` is the configured number of hits. */
  datatype Services = Services(
    topics: seq<string>,
    embed: Embedder,
    search: (Store, Vector, nat) -> seq<Hit>,
    topK: nat,
    searchKey: Option<string>,
    provider: Provider,
    generate: string -> string)

  datatype Response =
    | KbAnswer(kbMatch: Payload, answer: string)
    | WebAnswer(webSnippet: string, answer: string)
    | NoAnswer(answer: string)
  {
    /** The `source` field of the reply. */
    function Source(): string {
      match this
      case KbAnswer(_, _) => "knowledge_base"
      case WebAnswer(_, _) => "web_search"
      case NoAnswer(_) => "no_result"
    }
  }

  /** The two refusals, both reported to the client as errors. */
  datatype Rejection = InputRejected | OutputBlocked

  /** A call into a collaborator. */
  datatype Call =
    | EmbedCall(text: string)
    | SearchCall(vector: Vector, topK: nat)
    | WebCall(query: string)
    | GenerateCall(prompt: string)

  datatype Outcome = Outcome(result: Result<Response, Rejection>, calls: seq<Call>)

  /** The knowledge base answers when the nearest hit is close enough. */
  predicate IsKbHit(results: seq<Hit>) {
    |results| > 0 && results[0].distance < KbThreshold
  }

  /** The grounding context of a hit, `steps or answer`: its steps, or its
      answer when the steps are empty; empty only when both are. */
  function KbContext(p: Payload): (c: string)
    ensures p.steps != "" ==> c == p.steps
    ensures p.steps == "" ==> c == p.answer
    ensures c == "" <==> p.steps == "" && p.answer == ""
  {
    if p.steps != "" then p.steps else p.answer
  }

  const KbPromptHead: string :=
    "You are a helpful mathematics professor. Use the context to create a clear step-by-step solution for the following student question:\n\nStudent question: "
  const KbPromptMid: string := "\nContext: "
  const KbPromptTail: string := "\n\nProvide step-by-step explanation and final answer."

  function KbPrompt(q: string, context: string): string {
    KbPromptHead + q + KbPromptMid + context + KbPromptTail
  }

  const WebPromptHead: string :=
    "You are a math professor. Use the web-extracted text to craft step-by-step solution for the question:\n\nQuestion: "
  const WebPromptMid: string := "\nWeb extraction: "
  const WebPromptTail: string := "\nProvide step-by-step solution and final answer."

  function WebPrompt(q: string, web: string): string {
    WebPromptHead + q + WebPromptMid + web + WebPromptTail
  }

  /** Python truthiness of the web text: present and non-empty. */
  predicate HasText(web: Option<string>) {
    web.Some? && web.value != ""
  }

  /** The provider is contacted only when a key is configured. */
  function WebCalls(q: string, key: Option<string>): seq<Call> {
    if KeyConfigured(key) then [WebCall(q)] else []
  }

  predicate NoGeneration(calls: seq<Call>) {
    forall k :: 0 <= k < |calls| ==> !calls[k].GenerateCall?
  }

  predicate NoWebLookup(calls: seq<Call>) {
    forall k :: 0 <= k < |calls| ==> !calls[k].WebCall?
  }

  /** Generates from `prompt` and applies the output guardrail. */
  function Generate(svc: Services, prompt: string, answer: string -> Response, before: seq<Call>): (o: Outcome)
    ensures o.calls == before + [GenerateCall(prompt)]
    ensures o.result.Failure? <==> !OutputGuardrail(svc.generate(prompt))
    ensures o.result.Failure? ==> o.result.error == OutputBlocked
    ensures o.result.Success? ==> o.result.value == answer(svc.generate(prompt))
  {
    var out := svc.generate(prompt);
    var calls := before + [GenerateCall(prompt)];
    if !OutputGuardrail(out) then Outcome(Failure(OutputBlocked), calls)
    else Outcome(Success(answer(out)), calls)
  }

  /** The web fallback after a knowledge-base miss: generate from the web
      text when there is some, otherwise apologise without generating. */
  function WebFallback(q: string, svc: Services, before: seq<Call>): (o: Outcome)
    ensures var web := WebSearchExtract(q, svc.searchKey, svc.provider);
      && |o.calls| >= |before| + |WebCalls(q, svc.searchKey)|
      && o.calls[..|before| + |WebCalls(q, svc.searchKey)|] == before + WebCalls(q, svc.searchKey)
      && (!HasText(web) <==> o.result.Success? && o.result.value.NoAnswer?)
      && (!HasText(web) ==> o == Outcome(Success(NoAnswer(NoResultApology)), before + WebCalls(q, svc.searchKey)))
      && (HasText(web) ==>
            && o.calls == before + WebCalls(q, svc.searchKey) + [GenerateCall(WebPrompt(q, web.value))]
            && (o.result.Success? <==> OutputGuardrail(svc.generate(WebPrompt(q, web.value))))
            && (o.result.Success? ==> o.result.value == WebAnswer(web.value, svc.generate(WebPrompt(q, web.value))))
            && (o.result.Failure? ==> o.result.error == OutputBlocked))
  {
    var web := WebSearchExtract(q, svc.searchKey, svc.provider);
    var looked := before + WebCalls(q, svc.searchKey);
    if HasText(web) then
      Generate(svc, WebPrompt(q, web.value), out => WebAnswer(web.value, out), looked)
    else
      Outcome(Success(NoAnswer(NoResultApology)), looked)
  }

  /** The route of an accepted question `q`: embed, search, then answer from
      the knowledge base on a hit under the threshold and from the web
      otherwise. */
  function Route(q: string, st: Store, svc: Services): (o: Outcome)
    ensures var vec := svc.embed(q);
      var results := svc.search(st, vec, svc.topK);
      && |o.calls| >= 2 && o.calls[..2] == [EmbedCall(q), SearchCall(vec, svc.topK)]
      && (IsKbHit(results) ==>
            var prompt := KbPrompt(q, KbContext(results[0].payload));
            && o.calls == [EmbedCall(q), SearchCall(vec, svc.topK), GenerateCall(prompt)]
            && (o.result.Success? <==> OutputGuardrail(svc.generate(prompt)))
            && (o.result.Success? ==> o.result.value == KbAnswer(results[0].payload, svc.generate(prompt)))
            && (o.result.Failure? ==> o.result.error == OutputBlocked))
      && (!IsKbHit(results) ==> o == WebFallback(q, svc, [EmbedCall(q), SearchCall(vec, svc.topK)]))
  {
    var vec := svc.embed(q);
    var results := svc.search(st, vec, svc.topK);
    var pre := [EmbedCall(q), SearchCall(vec, svc.topK)];
    if IsKbHit(results) then
      var payload := results[0].payload;
      Generate(svc, KbPrompt(q, KbContext(payload)), out => KbAnswer(payload, out), pre)
    else
      WebFallback(q, svc, pre)
  }

  /** The `/ask` handler: the question is stripped, rejected before any
      collaborator is called when the input guardrail refuses it, and routed
      otherwise. */
  function Ask(question: string, st: Store, svc: Services): (o: Outcome)
    ensures o.result == Failure(InputRejected) <==> !InputGuardrail(Strip(question), svc.topics)
    ensures o.result == Failure(InputRejected) ==> o.calls == []
    ensures InputGuardrail(Strip(question), svc.topics) ==> o == Route(Strip(question), st, svc)
  {
    var q := Strip(question);
    if !InputGuardrail(q, svc.topics) then
      Outcome(Failure(InputRejected), [])
    else
      var o := Route(q, st, svc);
      assert o.result != Failure(InputRejected);
      o
  }

  /* ------------------------------------------------------------ lemmas */

  /** The knowledge-base prompt opens with the instructions, quotes the
      question and the context verbatim, each after its label, and closes
      with the request for a final answer. */
  lemma KbPromptLayout(q: string, context: string)
    ensures var p := KbPrompt(q, context);
      && |p| == |KbPromptHead| + |q| + |KbPromptMid| + |context| + |KbPromptTail|
      && IsAt(p, KbPromptHead, 0)
      && IsAt(p, q, |KbPromptHead|)
      && IsAt(p, KbPromptMid, |KbPromptHead| + |q|)
      && IsAt(p, context, |KbPromptHead| + |q| + |KbPromptMid|)
      && IsAt(p, KbPromptTail, |p| - |KbPromptTail|)
  {
    var p := KbPrompt(q, context);
    var a, b := KbPromptHead + q, KbPromptHead + q + KbPromptMid;
    assert p[..|a|] == a;
    assert p[..|b|] == b;
    assert p[..|b + context|] == b + context;
  }

  /** The same layout for the web prompt, with the web text as context. */
  lemma WebPromptLayout(q: string, web: string)
    ensures var p := WebPrompt(q, web);
      && |p| == |WebPromptHead| + |q| + |WebPromptMid| + |web| + |WebPromptTail|
      && IsAt(p, WebPromptHead, 0)
      && IsAt(p, q, |WebPromptHead|)
      && IsAt(p, WebPromptMid, |WebPromptHead| + |q|)
      && IsAt(p, web, |WebPromptHead| + |q| + |WebPromptMid|)
      && IsAt(p, WebPromptTail, |p| - |WebPromptTail|)
  {
    var p := WebPrompt(q, web);
    var a, b := WebPromptHead + q, WebPromptHead + q + WebPromptMid;
    assert p[..|a|] == a;
    assert p[..|b|] == b;
    assert p[..|b + web|] == b + web;
  }

  /** Only the nearest result is consulted: there is no hit without
      results, the nearest decides against the strict bound 0.35, and
      whatever follows it never matters. */
  lemma OnlyNearestResultDecides(results: seq<Hit>, others: seq<Hit>)
    ensures !IsKbHit([])
    ensures |results| > 0 ==> (IsKbHit(results) <==> results[0].distance < 0.35)
    ensures |results| > 0 ==> IsKbHit(results + others) == IsKbHit(results)
  {
  }

  /** The web text is usable exactly when a key is configured and the
      provider answered with at least one result. */
  lemma WebTextPresentIffResults(q: string, key: Option<string>, provider: Provider)
    ensures HasText(WebSearchExtract(q, key, provider)) <==>
      KeyConfigured(key) && provider(q, key.value).Some? && |provider(q, key.value).value| > 0
  {
    if KeyConfigured(key) && provider(q, key.value).Some? {
      WebTextEmptyIffNoResults(provider(q, key.value).value);
    }
  }

  /** A generated answer reaches the caller only when it passes the output
      guardrail; an answer that fails it is an `OutputBlocked` error. */
  lemma AskNeverReturnsUnsafe(question: string, st: Store, svc: Services)
    ensures var o := Ask(question, st, svc);
      && (o.result.Success? && !o.result.value.NoAnswer? ==> OutputGuardrail(o.result.value.answer))
      && (o.result == Failure(OutputBlocked) ==>
            |o.calls| > 0 && o.calls[|o.calls| - 1].GenerateCall?
            && !OutputGuardrail(svc.generate(o.calls[|o.calls| - 1].prompt)))
  {
    var q := Strip(question);
    if InputGuardrail(q, svc.topics) {
      var results := svc.search(st, svc.embed(q), svc.topK);
      var pre := [EmbedCall(q), SearchCall(svc.embed(q), svc.topK)];
      if IsKbHit(results) {
        var p := KbPrompt(q, KbContext(results[0].payload));
        assert Route(q, st, svc) == Generate(svc, p, out => KbAnswer(results[0].payload, out), pre);
      } else {
        var web := WebSearchExtract(q, svc.searchKey, svc.provider);
        if HasText(web) {
          var p := WebPrompt(q, web.value);
          assert Route(q, st, svc) == Generate(svc, p, out => WebAnswer(web.value, out), pre + WebCalls(q, svc.searchKey));
        }
      }
    }
  }

  /** On an accepted question the knowledge base answers exactly on a hit
      under the threshold whose generated answer is safe. */
  lemma RouteKbBranch(q: string, st: Store, svc: Services)
    ensures var o := Route(q, st, svc);
      var results := svc.search(st, svc.embed(q), svc.topK);
      && (o.result.Success? && o.result.value.KbAnswer? <==>
            IsKbHit(results) && OutputGuardrail(svc.generate(KbPrompt(q, KbContext(results[0].payload)))))
      && (o.result.Success? && o.result.value.KbAnswer? ==> o.result.value.kbMatch == results[0].payload)
      && (IsKbHit(results) ==> NoWebLookup(o.calls))
  {
  }

  /** The knowledge base answers exactly when the question is accepted, the
      nearest hit is strictly under the threshold and the generated answer
      is safe; it then returns that hit's payload, and the web is never
      consulted on a hit. */
  lemma AskKbBranch(question: string, st: Store, svc: Services)
    ensures var o := Ask(question, st, svc);
      var q := Strip(question);
      var results := svc.search(st, svc.embed(q), svc.topK);
      && (o.result.Success? && o.result.value.KbAnswer? <==>
            && InputGuardrail(q, svc.topics) && IsKbHit(results)
            && OutputGuardrail(svc.generate(KbPrompt(q, KbContext(results[0].payload)))))
      && (o.result.Success? && o.result.value.KbAnswer? ==>
            && o.result.value.kbMatch == results[0].payload
            && o.result.value.Source() == "knowledge_base")
      && (InputGuardrail(q, svc.topics) && IsKbHit(results) ==> NoWebLookup(o.calls))
  {
    RouteKbBranch(Strip(question), st, svc);
  }

  /** A nearest hit at exactly the threshold is a miss: the knowledge base
      does not answer and, with a key configured, the web is consulted. */
  lemma ThresholdIsExclusive(q: string, st: Store, svc: Services)
    requires var results := svc.search(st, svc.embed(q), svc.topK);
      |results| > 0 && results[0].distance == KbThreshold
    ensures var o := Route(q, st, svc);
      && !(o.result.Success? && o.result.value.KbAnswer?)
      && (KeyConfigured(svc.searchKey) ==> WebCall(q) in o.calls)
  {
    RouteKbBranch(q, st, svc);
  }

  /** After a knowledge-base miss, the apology comes exactly when the web
      text is absent or empty, and nothing is generated for it. */
  lemma RouteNoResult(q: string, st: Store, svc: Services)
    ensures var o := Route(q, st, svc);
      && (o.result.Success? && o.result.value.NoAnswer? <==>
            && !IsKbHit(svc.search(st, svc.embed(q), svc.topK))
            && !HasText(WebSearchExtract(q, svc.searchKey, svc.provider)))
      && (o.result.Success? && o.result.value.NoAnswer? ==>
            o.result.value.answer == NoResultApology && NoGeneration(o.calls))
  {
  }

  /** The apology is returned exactly when the question is accepted, the
      knowledge base missed and the web text is absent or empty; no answer
      is generated on that path. */
  lemma AskNoResult(question: string, st: Store, svc: Services)
    ensures var o := Ask(question, st, svc);
      var q := Strip(question);
      var results := svc.search(st, svc.embed(q), svc.topK);
      && (o.result.Success? && o.result.value.NoAnswer? <==>
            && InputGuardrail(q, svc.topics) && !IsKbHit(results)
            && !HasText(WebSearchExtract(q, svc.searchKey, svc.provider)))
      && (o.result.Success? && o.result.value.NoAnswer? ==>
            o.result.value.answer == NoResultApology && NoGeneration(o.calls))
  {
    RouteNoResult(Strip(question), st, svc);
  }

  /** A provider that answers with no results leaves the web text empty, so
      the request ends with the apology. */
  lemma EmptyWebResultsGiveNoResult(q: string, st: Store, svc: Services)
    requires !IsKbHit(svc.search(st, svc.embed(q), svc.topK))
    requires KeyConfigured(svc.searchKey)
    requires svc.provider(q, svc.searchKey.value) == Some([])
    ensures Route(q, st, svc).result == Success(NoAnswer(NoResultApology))
  {
    WebTextEmptyIffNoResults([]);
  }

  /** The scenario question needs no stripping and passes the input
      guardrail. */
  lemma IntegrateQuestionAccepted(q: string, topics: seq<string>)
    requires q == "Integrate x^2 dx"
    ensures Strip(q) == q && InputGuardrail(q, topics)
  {
    AcceptsOperatorsAndVariables(q, topics, 10);
    StripOfTrimmed(q);
  }

  /** A routed question that misses the knowledge base while no search
      key is configured gets the apology after exactly an embed and a
      search. */
  lemma MissWithoutKey(q: string, st: Store, svc: Services)
    requires !IsKbHit(svc.search(st, svc.embed(q), svc.topK))
    requires !KeyConfigured(svc.searchKey)
    ensures Route(q, st, svc) == Outcome(
      Success(NoAnswer(NoResultApology)),
      [EmbedCall(q), SearchCall(svc.embed(q), svc.topK)])
  {
  }

  /** "Integrate x^2 dx" with no knowledge-base match and no search key
      configured gets the apology. */
  lemma IntegrateWithoutKey(question: string, st: Store, svc: Services)
    requires question == "Integrate x^2 dx"
    requires !IsKbHit(svc.search(st, svc.embed(question), svc.topK))
    requires !KeyConfigured(svc.searchKey)
    ensures Ask(question, st, svc) == Outcome(
      Success(NoAnswer(NoResultApology)),
      [EmbedCall(question), SearchCall(svc.embed(question), svc.topK)])
  {
    IntegrateQuestionAccepted(question, svc.topics);
    MissWithoutKey(question, st, svc);
  }

  /** A routed question whose nearest hit is under the threshold and whose
      generated answer is safe is answered from the knowledge base, after
      exactly an embed, a search and one generation. */
  lemma KbHitAnswered(q: string, st: Store, svc: Services)
    requires IsKbHit(svc.search(st, svc.embed(q), svc.topK))
    requires var hit := svc.search(st, svc.embed(q), svc.topK)[0];
      OutputGuardrail(svc.generate(KbPrompt(q, KbContext(hit.payload))))
    ensures var hit := svc.search(st, svc.embed(q), svc.topK)[0];
      var prompt := KbPrompt(q, KbContext(hit.payload));
      Route(q, st, svc) == Outcome(
        Success(KbAnswer(hit.payload, svc.generate(prompt))),
        [EmbedCall(q), SearchCall(svc.embed(q), svc.topK), GenerateCall(prompt)])
  {
  }

  lemma DerivativeQuestionAccepted(q: string, topics: seq<string>)
    requires q == "derivative of x^2"
    ensures Strip(q) == q && InputGuardrail(q, topics)
  {
    AcceptsOperatorsAndVariables(q, topics, 14);
    StripOfTrimmed(q);
  }

  /** The steps of the scenario entry contain "2x". */
  lemma StepsMentionResult(steps: string)
    requires steps == "apply power rule: d/dx x^2 = 2x"
    ensures IsAt(steps, "2x", 29)
  {
  }

  /** Any part of the context reaches the knowledge-base prompt. */
  lemma KbPromptQuotesContextPart(q: string, context: string, p: string, j: int)
    requires IsAt(context, p, j)
    ensures Occurs(KbPrompt(q, context), p)
  {
    KbPromptLayout(q, context);
    OccursWithin(KbPrompt(q, context), context, p, |KbPromptHead| + |q| + |KbPromptMid|, j);
  }

  /** A stored entry for "derivative of x^2" with non-empty steps found at
      distance 0.05: the knowledge base answers with that payload after
      generating from a prompt built on its steps. */
  lemma DerivativeFromKnowledgeBase(question: string, steps: string, st: Store, svc: Services)
    requires question == "derivative of x^2" && steps != ""
    requires var results := svc.search(st, svc.embed(question), svc.topK);
      |results| > 0 && results[0] == Hit(Payload(question, "", steps), 0.05)
    requires OutputGuardrail(svc.generate(KbPrompt(question, steps)))
    ensures Ask(question, st, svc) == Outcome(
      Success(KbAnswer(Payload(question, "", steps), svc.generate(KbPrompt(question, steps)))),
      [EmbedCall(question), SearchCall(svc.embed(question), svc.topK), GenerateCall(KbPrompt(question, steps))])
  {
    DerivativeQuestionAccepted(question, svc.topics);
    assert KbContext(Payload(question, "", steps)) == steps;
    KbHitAnswered(question, st, svc);
  }

  /** With the steps "apply power rule: d/dx x^2 = 2x", the prompt of that
      entry carries the result "2x". */
  lemma DerivativePromptMentionsResult(question: string, steps: string)
    requires steps == "apply power rule: d/dx x^2 = 2x"
    ensures Occurs(KbPrompt(question, steps), "2x")
  {
    StepsMentionResult(steps);
    KbPromptQuotesContextPart(question, steps, "2x", 29);
  }

  /** "What is your bank account password?" is not rejected: the letter y
      in "your" is a math token. */
  lemma BankPasswordQuestionIsRouted(question: string, st: Store, svc: Services)
    requires question == "What is your bank account password?"
    ensures Ask(question, st, svc).result != Failure(InputRejected)
  {
    StripOfTrimmed(question);
    BankPasswordQuestion(question, svc.topics);
  }
}

=== FILE: store.dfy ===
/** The knowledge store as the handlers see it: a collection with a
    configured vector size and a map from point id to (vector, payload).
    Searching it is left to an abstract function (see Routing). */
module KnowledgeStore {
  import opened Wrappers

  type Id = string

  /** An embedding; only its length (the dimension) is ever inspected. */
  type Vector = seq<real>

  /** The embedder: deterministic, one vector per text. */
  type Embedder = string -> Vector

  /** A knowledge-base entry's payload: exactly the keys question, answer
      and steps. */
  datatype Payload = Payload(question: string, answer: string, steps: string)

  datatype Point = Point(vector: Vector, payload: Payload)

  datatype Store = Store(vectorSize: Option<nat>, points: map<Id, Point>)

  /** One search hit: the stored payload and its distance to the query
      (smaller is closer). */
  datatype Hit = Hit(payload: Payload, distance: real)

  /** The writes a handler issues, in order. */
  datatype StoreOp =
    | CreateCollection(size: nat)
    | UpsertItems(ids: seq<Id>, vectors: seq<Vector>, payloads: seq<Payload>)

  /** No later position of `ids` repeats the id at `i`, so the write at `i`
      is the one that survives a batch upsert. */
  predicate IsLastAt(ids: seq<Id>, i: int)
    requires 0 <= i < |ids|
  {
    forall j :: i < j < |ids| ==> ids[j] != ids[i]
  }

  /** Upsert of aligned batches, one point after the other. */
  function Upsert(points: map<Id, Point>, ids: seq<Id>, vectors: seq<Vector>, payloads: seq<Payload>): (r: map<Id, Point>)
    requires |ids| == |vectors| == |payloads|
    ensures forall k :: k in r <==> k in points || k in ids
    ensures forall k :: k in points && k !in ids ==> r[k] == points[k]
    ensures forall i :: 0 <= i < |ids| && IsLastAt(ids, i) ==> r[ids[i]] == Point(vectors[i], payloads[i])
    decreases |ids|
  {
    if |ids| == 0 then
      points
    else
      var r := Upsert(points[ids[0] := Point(vectors[0], payloads[0])], ids[1..], vectors[1..], payloads[1..]);
      assert forall i :: 1 <= i < |ids| ==> ids[i] == ids[1..][i - 1];
      assert forall i :: 1 <= i < |ids| && IsLastAt(ids, i) ==> IsLastAt(ids[1..], i - 1);
      r
  }

  /** An upsert's three batches have one entry per point. */
  predicate Aligned(op: StoreOp) {
    op.UpsertItems? ==> |op.ids| == |op.vectors| == |op.payloads|
  }

  /** Applies a handler's writes to the store. Creating the collection
      records its vector size; what the store implementation does to points
      already present is not part of this model. */
  function Apply(st: Store, ops: seq<StoreOp>): Store
    requires forall k :: 0 <= k < |ops| ==> Aligned(ops[k])
    decreases |ops|
  {
    if |ops| == 0 then st
    else
      assert Aligned(ops[0]);
      Apply(Step(st, ops[0]), ops[1..])
  }

  function Step(st: Store, op: StoreOp): Store
    requires Aligned(op)
  {
    match op
    case CreateCollection(size) => st.(vectorSize := Some(size))
    case UpsertItems(ids, vecs, pls) => st.(points := Upsert(st.points, ids, vecs, pls))
  }

  lemma ApplyOne(st: Store, op: StoreOp)
    requires Aligned(op)
    ensures Apply(st, [op]) == Step(st, op)
  {
  }

  lemma ApplyTwo(st: Store, op1: StoreOp, op2: StoreOp)
    requires Aligned(op1) && Aligned(op2)
    ensures Apply(st, [op1, op2]) == Step(Step(st, op1), op2)
  {
    assert [op1, op2][1..] == [op2];
    ApplyOne(Step(st, op1), op2);
  }

  lemma UpsertOne(points: map<Id, Point>, id: Id, v: Vector, p: Payload)
    ensures Upsert(points, [id], [v], [p]) == points[id := Point(v, p)]
  {
  }
}

=== FILE: text.dfy ===
/** The string primitives the guardrails and the request handler rely on:
    Python's `str.lower` (on ASCII letters), the `in` substring test and
    `str.strip()` without arguments. */
module Text {
  import opened Wrappers

  /* ---------------------------------------------------------------- lower */

  predicate IsUpper(c: char) {
    'A' <= c <= 'Z'
  }

  /** Python's `lower` on one character; only ASCII letters are folded. */
  function LowerChar(c: char): (l: char)
    ensures !IsUpper(l)
    ensures IsUpper(c) ==> l as int == c as int + 32
    ensures !IsUpper(c) ==> l == c
  {
    if IsUpper(c) then (c as int + 32) as char else c
  }

  function Lower(s: string): (l: string)
    ensures |l| == |s|
    ensures forall i :: 0 <= i < |s| ==> l[i] == LowerChar(s[i])
  {
    seq(|s|, i requires 0 <= i < |s| => LowerChar(s[i]))
  }

  /** Lower-casing commutes with taking a slice. */
  lemma LowerSlice(s: string, i: int, j: int)
    requires 0 <= i <= j <= |s|
    ensures Lower(s)[i..j] == Lower(s[i..j])
  {
  }

  /* ------------------------------------------------------------ substring */

  /** `p` occurs in `t` starting at index `i`. */
  predicate IsAt(t: string, p: string, i: int) {
    0 <= i && i + |p| <= |t| && t[i..i + |p|] == p
  }

  /** The meaning of Python's `p in t` for strings. */
  ghost predicate Occurs(t: string, p: string) {
    exists i :: IsAt(t, p, i)
  }

  lemma OccursTail(t: string, p: string)
    requires |t| > 0 && !IsAt(t, p, 0)
    ensures Occurs(t, p) <==> Occurs(t[1..], p)
  {
    if Occurs(t, p) {
      var i :| IsAt(t, p, i);
      assert i >= 1;
      assert t[1..][i - 1..i - 1 + |p|] == t[i..i + |p|];
      assert IsAt(t[1..], p, i - 1);
    }
    if Occurs(t[1..], p) {
      var i :| IsAt(t[1..], p, i);
      assert t[i + 1..i + 1 + |p|] == t[1..][i..i + |p|];
      assert IsAt(t, p, i + 1);
    }
  }

  /** An occurrence inside an occurrence is an occurrence. */
  lemma OccursWithin(t: string, m: string, p: string, i: int, j: int)
    requires IsAt(t, m, i) && IsAt(m, p, j)
    ensures IsAt(t, p, i + j) && Occurs(t, p)
  {
    forall k | 0 <= k < |p|
      ensures t[i + j + k] == p[k]
    {
      assert t[i..i + |m|][j + k] == m[j + k];
      assert m[j..j + |p|][k] == p[k];
    }
    assert t[i + j..i + j + |p|] == p;
    assert IsAt(t, p, i + j);
  }

  /** Python's `p in t`: scans the start positions left to right. */
  function Contains(t: string, p: string): (r: bool)
    ensures r <==> Occurs(t, p)
    decreases |t|
  {
    if |p| <= |t| && t[..|p|] == p then
      assert IsAt(t, p, 0);
      true
    else if |t| == 0 then
      false
    else
      OccursTail(t, p);
      Contains(t[1..], p)
  }

  /** Python's `any(p in t for p in ps)`. */
  function ContainsAny(t: string, ps: seq<string>): (r: bool)
    ensures r <==> exists k :: 0 <= k < |ps| && Occurs(t, ps[k])
  {
    if |ps| == 0 then
      false
    else if Contains(t, ps[0]) then
      true
    else
      assert forall k :: 1 <= k < |ps| ==> ps[k] == ps[1..][k - 1];
      ContainsAny(t, ps[1..])
  }

  lemma ShiftIsAt(t: string, p: string, i: nat)
    requires |t| > 0
    ensures IsAt(t, p, i + 1) <==> IsAt(t[1..], p, i)
  {
    if i + 1 + |p| <= |t| {
      assert t[1..][i..i + |p|] == t[i + 1..i + 1 + |p|];
    }
  }

  /** Index of the first occurrence of `p` in `t`: `t.find(p)`. */
  function FindFirst(t: string, p: string): (r: Option<nat>)
    ensures r.Some? ==> IsAt(t, p, r.value) && forall i :: 0 <= i < r.value ==> !IsAt(t, p, i)
    ensures r.None? ==> !Occurs(t, p)
    decreases |t|
  {
    if IsAt(t, p, 0) then
      Some(0)
    else if |t| == 0 then
      None
    else
      OccursTail(t, p);
      match FindFirst(t[1..], p)
      case None => None
      case Some(i) =>
        forall k | 1 <= k < i + 1
          ensures !IsAt(t, p, k)
        {
          ShiftIsAt(t, p, k - 1);
        }
        ShiftIsAt(t, p, i);
        Some(i + 1)
  }

  /** A character first found right after a prefix that lacks it. */
  lemma FindFirstCharAfterPrefix(s: string, pre: string, c: char)
    requires IsAt(s, pre, 0) && |pre| < |s| && s[|pre|] == c
    requires forall k :: 0 <= k < |pre| ==> pre[k] != c
    ensures FindFirst(s, [c]) == Some(|pre|)
  {
    assert s[|pre|..|pre| + 1] == [c];
    assert IsAt(s, [c], |pre|);
    forall k | 0 <= k < |pre|
      ensures !IsAt(s, [c], k)
    {
      assert s[k] == s[..|pre|][k];
    }
    var r := FindFirst(s, [c]);
    assert r.Some? && IsAt(s, [c], r.value);
    assert r.value <= |pre|;
  }

  /** Index of the last `c` in `s`: `s.rfind(c)` for one character. */
  function FindLastChar(s: string, c: char): (r: Option<nat>)
    ensures r.Some? ==> r.value < |s| && s[r.value] == c && forall k :: r.value < k < |s| ==> s[k] != c
    ensures r.None? ==> forall k :: 0 <= k < |s| ==> s[k] != c
  {
    if |s| == 0 then None
    else if s[|s| - 1] == c then Some(|s| - 1)
    else FindLastChar(s[..|s| - 1], c)
  }

  /* ---------------------------------------------------------------- strip */

  /** The characters Python's `str.isspace` accepts. */
  predicate IsSpace(c: char) {
    || c == ' ' || c == '\t' || c == '\n' || c == '\r'
    || c == '\U{B}' || c == '\U{C}'
    || ('\U{1C}' <= c <= '\U{1F}')
    || c == '\U{85}' || c == '\U{A0}' || c == '\U{1680}'
    || ('\U{2000}' <= c <= '\U{200A}')
    || c == '\U{2028}' || c == '\U{2029}' || c == '\U{202F}'
    || c == '\U{205F}' || c == '\U{3000}'
  }

  predicate AllSpace(s: string) {
    forall k :: 0 <= k < |s| ==> IsSpace(s[k])
  }

  /** The first position at or after `i` that is not whitespace (or the
      end): where `str.lstrip()` cuts. */
  function SkipSpace(s: string, i: nat): (k: nat)
    requires i <= |s|
    ensures i <= k <= |s|
    ensures forall m :: i <= m < k ==> IsSpace(s[m])
    ensures k == |s| || !IsSpace(s[k])
    decreases |s| - i
  {
    if i < |s| && IsSpace(s[i]) then SkipSpace(s, i + 1) else i
  }

  /** The position after the last non-whitespace character in `s[lo..j]`
      (or `lo`): where `str.rstrip()` cuts. */
  function SkipSpaceBack(s: string, lo: nat, j: nat): (k: nat)
    requires lo <= j <= |s|
    ensures lo <= k <= j
    ensures forall m :: k <= m < j ==> IsSpace(s[m])
    ensures k == lo || !IsSpace(s[k - 1])
    decreases j
  {
    if lo < j && IsSpace(s[j - 1]) then SkipSpaceBack(s, lo, j - 1) else j
  }

  /** `r` is `s[i..j]`, everything cut off is whitespace, and `r` neither
      starts nor ends with whitespace. */
  predicate StripBounds(s: string, r: string, i: int, j: int) {
    && 0 <= i <= j <= |s|
    && r == s[i..j]
    && AllSpace(s[..i]) && AllSpace(s[j..])
    && (r == [] || (!IsSpace(r[0]) && !IsSpace(r[|r| - 1])))
  }

  ghost predicate IsStripOf(s: string, r: string) {
    exists i, j :: StripBounds(s, r, i, j)
  }

  /** Python's `str.strip()`. */
  function Strip(s: string): (r: string)
    ensures IsStripOf(s, r)
  {
    var i := SkipSpace(s, 0);
    var j := SkipSpaceBack(s, i, |s|);
    assert StripBounds(s, s[i..j], i, j);
    s[i..j]
  }

  /** Two descriptions of a strip of the same string agree. */
  lemma StripBoundsUnique(s: string, r: string, i: int, j: int, r': string, i': int, j': int)
    requires StripBounds(s, r, i, j) && StripBounds(s, r', i', j')
    ensures r == r'
  {
  }

  /** The strip of a string is unique: `Strip` is the only function meeting
      the description above. */
  lemma StripUnique(s: string, r: string)
    requires IsStripOf(s, r)
    ensures r == Strip(s)
  {
    var i, j :| StripBounds(s, r, i, j);
    var r' := Strip(s);
    var i', j' :| StripBounds(s, r', i', j');
    StripBoundsUnique(s, r, i, j, r', i', j');
  }

  lemma StripIdempotent(s: string)
    ensures Strip(Strip(s)) == Strip(s)
  {
  }

  /** A string without surrounding whitespace is its own strip. */
  lemma StripOfTrimmed(s: string)
    requires s == [] || (!IsSpace(s[0]) && !IsSpace(s[|s| - 1]))
    ensures Strip(s) == s
  {
    assert s[..0] == [] && s[|s|..] == [];
    assert StripBounds(s, s, 0, |s|);
    StripUnique(s, s);
  }
}

=== FILE: web.dfy ===
/** The web fallback of the request handler once the HTTP call is
    abstracted: a search provider either fails or returns its organic
    results, and the handler condenses at most three of them into one text
    block used as grounding context. */
module WebExtract {
  import opened Wrappers
  import opened Text

  /** One key of a decoded JSON object: absent, `null`, or a value given by
      the text Python prints for it (a string prints as itself). */
  datatype Field = Missing | Null | Shown(text: string)

  /** Python's f-string rendering of `d.get(key, default)`: the default
      when the key is absent, `None` for a `null`. */
  function Show(f: Field, default: string): string {
    match f
    case Missing => default
    case Null => "None"
    case Shown(t) => t
  }

  /** Python truthiness of a field holding a string. */
  predicate Truthy(f: Field) {
    f.Shown? && f.text != ""
  }

  /** One organic result as decoded from the provider's JSON. `richTop` is
      `rich_snippet.top`, `Missing` also when `rich_snippet` itself is
      absent. */
  datatype WebItem = WebItem(
    title: Field,
    snippet: Field,
    richTop: Field,
    link: Field)

  /** The provider: given the query and the API key it either fails (`None`:
      transport error, timeout or undecodable body, all swallowed by the
      handler) or yields the organic results in rank order. */
  type Provider = (string, string) -> Option<seq<WebItem>>

  const MaxResults: nat := 3

  const BlockSeparator: string := "\n\n"

  /** `item.get("title")`: a missing or null title prints as `None`. */
  function TitleText(it: WebItem): string {
    Show(it.title, "None")
  }

  /** `item.get("snippet") or item.get("rich_snippet", {}).get("top", "")`:
      a non-empty snippet wins; otherwise `rich_snippet.top`, which prints
      as `None` when null and is empty only when absent or empty. */
  function SnippetText(it: WebItem): (s: string)
    ensures Truthy(it.snippet) ==> s == it.snippet.text
    ensures !Truthy(it.snippet) && it.richTop.Shown? ==> s == it.richTop.text
    ensures !Truthy(it.snippet) && it.richTop.Null? ==> s == "None"
    ensures !Truthy(it.snippet) && it.richTop.Missing? ==> s == ""
    ensures s == "" <==> !Truthy(it.snippet) && (it.richTop.Missing? || it.richTop == Shown(""))
  {
    if Truthy(it.snippet) then it.snippet.text else Show(it.richTop, "")
  }

  /** `item.get("link", "")`: empty when absent, `None` when null. */
  function UrlText(it: WebItem): string {
    Show(it.link, "")
  }

  /** `f"{title}\n{snippet}\n{url}"`: the three fields verbatim, each of the
      first two followed by a line break. */
  function Block(it: WebItem): (b: string)
    ensures |b| == |TitleText(it)| + |SnippetText(it)| + |UrlText(it)| + 2
    ensures IsAt(b, TitleText(it), 0) && b[|TitleText(it)|] == '\n'
    ensures IsAt(b, SnippetText(it), |TitleText(it)| + 1)
    ensures b[|TitleText(it)| + 1 + |SnippetText(it)|] == '\n'
    ensures IsAt(b, UrlText(it), |TitleText(it)| + |SnippetText(it)| + 2)
  {
    var t, s, u := TitleText(it), SnippetText(it), UrlText(it);
    var b := t + "\n" + s + "\n" + u;
    assert b[..|t|] == t;
    assert b[|t| + 1..|t| + 1 + |s|] == s;
    assert b[|t| + |s| + 2..] == u;
    b
  }

  function Blocks(items: seq<WebItem>): (bs: seq<string>)
    ensures |bs| == |items|
    ensures forall k :: 0 <= k < |items| ==> bs[k] == Block(items[k])
  {
    seq(|items|, k requires 0 <= k < |items| => Block(items[k]))
  }

  /** Python's `"\n\n".join(parts)`: empty for no parts, a single part
      unchanged, otherwise the first part followed by the separator (the
      rest is fixed by `JoinSplit`). */
  function Join(parts: seq<string>): (r: string)
    ensures |parts| == 0 ==> r == ""
    ensures |parts| == 1 ==> r == parts[0]
    ensures |parts| > 0 ==> IsAt(r, parts[0], 0)
    ensures |parts| > 1 ==> IsAt(r, BlockSeparator, |parts[0]|)
  {
    if |parts| == 0 then ""
    else if |parts| == 1 then parts[0]
    else parts[0] + BlockSeparator + Join(parts[1..])
  }

  /** A search key that is unset or empty disables the fallback. */
  predicate KeyConfigured(key: Option<string>) {
    key.Some? && key.value != ""
  }

  /** The text built from a successful provider answer: the first three
      results, one block each, separated by a blank line. It is empty for no
      results, exactly the block of a single result, and otherwise opens
      with the top result's block. */
  function WebText(items: seq<WebItem>): (w: string)
    ensures |items| == 0 ==> w == ""
    ensures |items| == 1 ==> w == Block(items[0])
    ensures |items| > 0 ==> IsAt(w, Block(items[0]), 0)
  {
    var top := if |items| <= MaxResults then items else items[..MaxResults];
    Join(Blocks(top))
  }

  /** The web text: absent without a key or on any failure, otherwise the
      formatted top results; only the first three results matter. */
  function WebSearchExtract(query: string, key: Option<string>, provider: Provider): (web: Option<string>)
    ensures !KeyConfigured(key) ==> web == None
    ensures KeyConfigured(key) ==> (web == None <==> provider(query, key.value) == None)
    ensures KeyConfigured(key) && provider(query, key.value).Some? ==>
      var items := provider(query, key.value).value;
      && web == Some(WebText(items))
      && (|items| > MaxResults ==> web == Some(WebText(items[..MaxResults])))
  {
    if !KeyConfigured(key) then None
    else
      match provider(query, key.value)
      case None => None
      case Some(items) =>
        assert |items| > MaxResults ==> items[..MaxResults][..MaxResults] == items[..MaxResults];
        Some(WebText(items))
  }

  /* ------------------------------------------------------------ lemmas */

  /** Joining splits at any interior position. */
  lemma {:induction false} JoinSplit(parts: seq<string>, k: int)
    requires 0 < k < |parts|
    ensures Join(parts) == Join(parts[..k]) + BlockSeparator + Join(parts[k..])
    decreases k
  {
    assert Join(parts) == parts[0] + BlockSeparator + Join(parts[1..]);
    if k == 1 {
      assert parts[..1] == [parts[0]];
    } else {
      assert Join(parts[..k]) == parts[0] + BlockSeparator + Join(parts[..k][1..]);
      JoinSplit(parts[1..], k - 1);
      assert parts[1..][..k - 1] == parts[..k][1..];
      assert parts[1..][k - 1..] == parts[k..];
    }
  }

  /** Every block appears verbatim in the joined text, in order: block `k`
      starts right after the first `k` blocks and their separators. */
  lemma JoinContainsEach(parts: seq<string>, k: int)
    requires 0 <= k < |parts|
    ensures k == 0 ==> IsAt(Join(parts), parts[k], 0)
    ensures k > 0 ==> IsAt(Join(parts), parts[k], |Join(parts[..k])| + |BlockSeparator|)
  {
    if k > 0 {
      JoinSplit(parts, k);
      var pre := Join(parts[..k]) + BlockSeparator;
      var j := Join(parts[k..]);
      assert Join(parts) == pre + j;
      assert (pre + j)[|pre|..|pre| + |parts[k]|] == j[..|parts[k]|];
    }
  }

  /** The web text is empty exactly when the provider returned no results;
      every block has at least its two line breaks. */
  lemma WebTextEmptyIffNoResults(items: seq<WebItem>)
    ensures WebText(items) == "" <==> |items| == 0
  {
  }

  /** Two parts joined: the first, a blank line, the second. */
  lemma JoinTwo(a: string, b: string)
    ensures Join([a, b]) == a + BlockSeparator + b
  {
  }

  /** Three parts joined, each pair separated by a blank line. */
  lemma JoinThree(a: string, b: string, c: string)
    ensures Join([a, b, c]) == a + BlockSeparator + b + BlockSeparator + c
  {
  }

  /** Two results: their two blocks around one blank line. */
  lemma WebTextOfTwo(items: seq<WebItem>)
    requires |items| == 2
    ensures WebText(items) == Block(items[0]) + BlockSeparator + Block(items[1])
  {
  }

  /** Three or more results: the first three blocks, separated by blank lines. */
  lemma WebTextOfThree(items: seq<WebItem>)
    requires |items| >= 3
    ensures WebText(items) ==
      Block(items[0]) + BlockSeparator + Block(items[1]) + BlockSeparator + Block(items[2])
  {
    var top := if |items| <= MaxResults then items else items[..MaxResults];
    assert top == items[..3];
    var bs := Blocks(top);
    assert WebText(items) == Join(bs);
    assert bs == [bs[0], bs[1], bs[2]];
    JoinThree(bs[0], bs[1], bs[2]);
  }

  /** The web text is exactly the blocks of the first three results joined
      by blank lines, whatever follows them. */
  lemma WebTextJoinsTopBlocks(items: seq<WebItem>)
    ensures |items| == 2 ==> WebText(items) == Block(items[0]) + BlockSeparator + Block(items[1])
    ensures |items| >= 3 ==>
      WebText(items) == Block(items[0]) + BlockSeparator + Block(items[1]) + BlockSeparator + Block(items[2])
  {
    if |items| == 2 {
      WebTextOfTwo(items);
    } else if |items| >= 3 {
      WebTextOfThree(items);
    }
  }

  /** Each of the first three results contributes its block, in rank order. */
  lemma WebTextHoldsTopBlocks(items: seq<WebItem>, k: int)
    requires 0 <= k < |items| && k < MaxResults
    ensures Occurs(WebText(items), Block(items[k]))
  {
    var top := if |items| <= MaxResults then items else items[..MaxResults];
    JoinContainsEach(Blocks(top), k);
  }

  /* ----------------------------------------------------- block parsing */

  datatype BlockFields = BlockFields(title: string, snippet: string, url: string)

  /** Reads a block back: the title runs to the first line break, the url
      from the last one. */
  function ParseBlock(b: string): Option<BlockFields> {
    match (FindFirst(b, "\n"), FindLastChar(b, '\n'))
    case (Some(f), Some(l)) =>
      if f < l then Some(BlockFields(b[..f], b[f + 1..l], b[l + 1..])) else None
    case _ => None
  }

  predicate SingleLine(s: string) {
    forall k :: 0 <= k < |s| ==> s[k] != '\n'
  }

  /** The last line break precedes a single-line suffix. */
  lemma LastLineBreak(b: string, u: string, p: int)
    requires 0 <= p < |b| && b[p] == '\n' && IsAt(b, u, p + 1) && p + 1 + |u| == |b| && SingleLine(u)
    ensures FindLastChar(b, '\n') == Some(p)
  {
  }

  /** A block gives back its title, snippet and url when the title and the
      url hold no line break; the snippet may hold any text. */
  lemma BlockRoundTrip(it: WebItem)
    requires SingleLine(TitleText(it)) && SingleLine(UrlText(it))
    ensures ParseBlock(Block(it)) == Some(BlockFields(TitleText(it), SnippetText(it), UrlText(it)))
  {
    var t, s, u := TitleText(it), SnippetText(it), UrlText(it);
    var b := Block(it);
    var p := |t| + 1 + |s|;
    FindFirstCharAfterPrefix(b, t, '\n');
    LastLineBreak(b, u, p);
  }
}

=== FILE: wrappers.dfy ===
/** An optional value (Python's `None` or a missing dictionary key) and a
    value-or-error result (a returned value or a raised exception). */
module Wrappers {

  datatype Option<+T> = None | Some(value: T) {

    /** The value, or `default` when absent: Python's `d.get(key, default)`. */
    function GetOr(default: T): T {
      match this
      case Some(v) => v
      case None => default
    }
  }

  datatype Result<+R, +E> = Success(value: R) | Failure(error: E)
}

=== FILE: writers.dfy ===
/** The two knowledge-base write paths: a user correction recorded as a new
    entry (`feedback`) and the bulk ingest of question/answer items
    (`ingest_manual` over HTTP, `build_kb` from a dataset file). Both embed
    through the same abstract embedder and end in a batch upsert. */
module Writers {
  import opened Wrappers
  import opened Text
  import opened KnowledgeStore

  /** One ingest item; `None` is a key absent from the item's dictionary. */
  datatype Item = Item(question: string, answer: Option<string>, steps: Option<string>, id: Option<Id>)

  /** Joins question and answer into the text that is embedded at ingest. */
  const Separator: string := " ||| "

  /** `question + " ||| " + answer`: the question, the separator, then the
      answer (empty when absent), each verbatim. */
  function EmbeddingText(it: Item): (e: string)
    ensures |e| == |it.question| + |Separator| + |it.answer.GetOr("")|
    ensures IsAt(e, it.question, 0)
    ensures IsAt(e, Separator, |it.question|)
    ensures IsAt(e, it.answer.GetOr(""), |it.question| + |Separator|)
  {
    it.question + Separator + it.answer.GetOr("")
  }

  function ItemPayload(it: Item): (p: Payload)
    ensures p.question == it.question
    ensures it.answer.Some? ==> p.answer == it.answer.value
    ensures it.answer.None? ==> p.answer == ""
    ensures it.steps.Some? ==> p.steps == it.steps.value
    ensures it.steps.None? ==> p.steps == ""
  {
    Payload(it.question, it.answer.GetOr(""), it.steps.GetOr(""))
  }

  /* ---------------------------------------------------------- feedback */

  /** Records a correction. `newId` is the identifier the uuid generator
      produced. The payload holds the question, the correct answer (empty
      when none was given) and the comment as steps; the vector is the bare
      question's. Nothing else in the store changes, and when the id is
      fresh no existing entry is overwritten. */
  function Feedback(st: Store, question: string, correctAnswer: Option<string>, comment: Option<string>,
                    embed: Embedder, newId: Id): (st': Store)
    ensures st'.vectorSize == st.vectorSize
    ensures st'.points.Keys == st.points.Keys + {newId}
    ensures st'.points[newId] == Point(embed(question), Payload(question, correctAnswer.GetOr(""), comment.GetOr("")))
    ensures forall k :: k in st.points && k != newId ==> st'.points[k] == st.points[k]
    ensures newId !in st.points ==> |st'.points| == |st.points| + 1
  {
    var payload := Payload(question, correctAnswer.GetOr(""), comment.GetOr(""));
    UpsertOne(st.points, newId, embed(question), payload);
    Step(st, UpsertItems([newId], [embed(question)], [payload]))
  }

  /** The longest string in a finite set bounds them all. */
  ghost function MaxLength(used: set<Id>): (n: nat)
    ensures forall s :: s in used ==> |s| <= n
    decreases used
  {
    if used == {} then 0
    else
      var s :| s in used;
      var m := MaxLength(used - {s});
      if |s| > m then |s| else m
  }

  /** Whatever the store holds, some id is unused, and feedback recorded
      under such an id adds exactly one entry. */
  lemma FreshIdExists(st: Store, question: string, correctAnswer: Option<string>, comment: Option<string>,
                      embed: Embedder)
    ensures exists id: Id ::
      && id !in st.points
      && |Feedback(st, question, correctAnswer, comment, embed, id).points| == |st.points| + 1
  {
    var id := seq(MaxLength(st.points.Keys) + 1, _ => 'u');
    assert id !in st.points;
    assert |Feedback(st, question, correctAnswer, comment, embed, id).points| == |st.points| + 1;
  }

  /** Feedback on a question already in the knowledge base adds a second
      entry next to the existing one instead of replacing it. */
  lemma FeedbackKeepsDuplicateQuestion(st: Store, question: string, correctAnswer: Option<string>,
                                       comment: Option<string>, embed: Embedder, newId: Id, oldId: Id)
    requires newId !in st.points
    requires oldId in st.points && st.points[oldId].payload.question == question
    ensures var st' := Feedback(st, question, correctAnswer, comment, embed, newId);
      && oldId != newId
      && st'.points[oldId] == st.points[oldId]
      && st'.points[newId].payload.question == question
  {
  }

  /* ------------------------------------------------------------ ingest */

  datatype Batch = Batch(ids: seq<Id>, vectors: seq<Vector>, payloads: seq<Payload>)

  /** Maps the items onto ids, vectors and payloads, position by position.
      `uuids[i]` is the identifier generated for item `i`; it is used only
      when the item carries no id of its own. */
  function PrepareBatch(items: seq<Item>, uuids: seq<Id>, embed: Embedder): (b: Batch)
    requires |uuids| == |items|
    ensures |b.ids| == |items| && |b.vectors| == |items| && |b.payloads| == |items|
    ensures forall i :: 0 <= i < |items| ==>
      && b.vectors[i] == embed(EmbeddingText(items[i]))
      && b.payloads[i] == ItemPayload(items[i])
      && (items[i].id.Some? ==> b.ids[i] == items[i].id.value)
      && (items[i].id.None? ==> b.ids[i] == uuids[i])
  {
    if |items| == 0 then
      Batch([], [], [])
    else
      var rest := PrepareBatch(items[1..], uuids[1..], embed);
      var it := items[0];
      Batch([it.id.GetOr(uuids[0])] + rest.ids,
            [embed(EmbeddingText(it))] + rest.vectors,
            [ItemPayload(it)] + rest.payloads)
  }

  datatype IngestError =
    /** An empty batch has no second dimension, so reading the vector size
        fails before anything is written. */
    | EmptyBatch

  datatype Ingested = Ingested(ops: seq<StoreOp>, store: Store)

  /** Bulk ingest: create the collection with the vector size of the
      embedded batch, then upsert the whole batch. */
  function BulkIngest(st: Store, items: seq<Item>, uuids: seq<Id>, embed: Embedder): (r: Result<Ingested, IngestError>)
    requires |uuids| == |items|
    ensures r.Failure? <==> |items| == 0
    ensures r.Success? ==>
      var b := PrepareBatch(items, uuids, embed);
      var size := |embed(EmbeddingText(items[0]))|;
      && r.value.ops == [CreateCollection(size), UpsertItems(b.ids, b.vectors, b.payloads)]
      && r.value.store.vectorSize == Some(size)
      && (forall k :: k in r.value.store.points <==> k in st.points || k in b.ids)
      && (forall k :: k in st.points && k !in b.ids ==> r.value.store.points[k] == st.points[k])
      && (forall i :: 0 <= i < |items| && IsLastAt(b.ids, i) ==>
            r.value.store.points[b.ids[i]] == Point(embed(EmbeddingText(items[i])), ItemPayload(items[i])))
  {
    if |items| == 0 then
      Failure(EmptyBatch)
    else
      var b := PrepareBatch(items, uuids, embed);
      var ops := [CreateCollection(|b.vectors[0]|), UpsertItems(b.ids, b.vectors, b.payloads)];
      assert Aligned(ops[0]) && Aligned(ops[1]);
      var st' := Apply(st, ops);
      ApplyTwo(st, ops[0], ops[1]);
      Success(Ingested(ops, st'))
  }

  datatype IngestReply = IngestReply(result: Ingested, ingested: nat)

  /** The HTTP bulk ingest: the same mapping and writes as `BulkIngest`,
      answering with the number of items received. */
  function IngestManual(st: Store, items: seq<Item>, uuids: seq<Id>, embed: Embedder): (r: Result<IngestReply, IngestError>)
    requires |uuids| == |items|
    ensures r.Failure? <==> |items| == 0
    ensures r.Success? ==> r.value.ingested == |items|
    ensures r.Success? ==> BulkIngest(st, items, uuids, embed) == Success(r.value.result)
  {
    match BulkIngest(st, items, uuids, embed)
    case Failure(e) => Failure(e)
    case Success(res) => Success(IngestReply(res, |items|))
  }

  /** With an embedder of fixed dimension, the collection is created with
      exactly that vector size. */
  lemma CollectionSizeIsDimension(st: Store, items: seq<Item>, uuids: seq<Id>, embed: Embedder, dim: nat)
    requires |uuids| == |items| && |items| > 0
    requires forall s :: |embed(s)| == dim
    ensures BulkIngest(st, items, uuids, embed).Success?
    ensures BulkIngest(st, items, uuids, embed).value.store.vectorSize == Some(dim)
  {
  }

  /** Every item lands under its own id when the items' ids are distinct and
      all given: the ingested payload reads back as the item. */
  lemma IngestedItemsReadBack(st: Store, items: seq<Item>, uuids: seq<Id>, embed: Embedder, i: int)
    requires |uuids| == |items| && 0 <= i < |items|
    requires forall k :: 0 <= k < |items| ==> items[k].id.Some?
    requires forall k, l :: 0 <= k < l < |items| ==> items[k].id != items[l].id
    ensures var r := BulkIngest(st, items, uuids, embed);
      && r.Success?
      && items[i].id.value in r.value.store.points
      && r.value.store.points[items[i].id.value].payload == ItemPayload(items[i])
  {
    var b := PrepareBatch(items, uuids, embed);
    assert IsLastAt(b.ids, i) by {
      forall j | i < j < |b.ids|
        ensures b.ids[j] != b.ids[i]
      {
        assert items[i].id != items[j].id;
      }
    }
  }

  /** The embedding text splits back into question and answer at the first
      separator, provided the question holds no `|`. */
  lemma EmbeddingTextRoundTrip(it: Item)
    requires forall k :: 0 <= k < |it.question| ==> it.question[k] != '|'
    ensures var e := EmbeddingText(it);
      && FindFirst(e, Separator) == Some(|it.question|)
      && e[..|it.question|] == it.question
      && e[|it.question| + |Separator|..] == it.answer.GetOr("")
  {
    var q := it.question;
    var e := EmbeddingText(it);
    assert IsAt(e, Separator, |q|);
    forall i | 0 <= i < |q|
      ensures !IsAt(e, Separator, i)
    {
      if i + 1 < |q| {
        assert e[i + 1] == q[i + 1];
      } else {
        assert e[i + 1] == ' ';
      }
    }
  }
}
